=== FILE: README.md ===
# Playwright test framework: CSV reader, environment resolver and REST request builder

This project models, in Dafny, the three pieces of logic in a Playwright end-to-end and API
test suite that are more than plumbing over the browser or HTTP client:

- **`readCsvSync`** (`src/utils/csvReader.ts`) without its file read. File content is split
  into lines at `"\n"` or `"\r\n"`, empty lines are dropped, and each line is split at `,`.
  The data-driven login test (`tests/auth.spec.ts`) then drops the header row and
  destructures each remaining row into username, password and expected outcome.
- **`getEnvironment`** (`src/config/environment.ts`). It picks one of four constant profiles
  (`dev`, `staging`, `prod`, `ci`). A set `CI` variable wins. Otherwise the `ENVIRONMENT`
  variable is used, defaulting to `dev`. An unknown name silently falls back to `dev`. The
  process environment is a parameter `map<string, string>`.
- **`RestfulApiHelper`** (`src/utils/restfulApi.ts`). Each helper method becomes the request
  it would send: a verb, a URL, headers and a body. This includes the `id=…&id=…` query of
  `getObjectsByIds` and the three `createSample*` payload builders.

All three pieces are pure, so the model is written as datatypes, functions and lemmas.

Modules, one per file:

- `Options` (`options.dfy`): the optional value, used for JavaScript's `undefined`.
- `JsStrings` (`js_strings.dfy`): `String.prototype.split` and `Array.prototype.join` for a
  one-character separator, with their round-trip and counting lemmas. The CSV reader and the
  query builder share them.
- `CsvReader` (`csv_reader.dfy`).
- `Environment` (`environment.dfy`).
- `RestfulApi` (`restful_api.dfy`).

How some things are modelled:

- `Lines` follows the left-to-right scan of `split(/\r?\n/)`. A `'\r'` is part of a break only
  when it comes directly before `'\n'`. In `"a\r\r\nb"`, the first `'\r'` stays in the line
  `"a\r"`.
- The meaning of `Lines` is given by a separate decomposition. `Rejoin` puts lines back
  together with a per-break flag (`"\r\n"` or `"\n"`). `LinesDecompose` shows that the content
  equals the rejoined lines and that no line holds `'\n'` or ends in the `'\r'` of a `"\r\n"`.
  `LinesOfRejoin` shows that this decomposition is unique.
- "`CI` is set" means what JavaScript truthiness means for an environment string: present and
  not empty. A `CI` value of `"false"` or `"0"` still selects the `ci` profile. The code tests
  truthiness, not presence, so an empty `CI` counts as absent; the model follows the code.
- `Route` reads a URL of this helper back, literally, into the collection, a list of ids, or
  one object. Everything after `/objects/` is taken as the id, and the query is only split at
  `&` and stripped of `id=`; no other URL syntax is interpreted. The builders' URLs are stated
  through it.

## Model

| member | source | states |
|---|---|---|
| `JsStrings.Join` | src/utils/restfulApi.ts:43 | an empty array joins to `""` and one piece to itself; what a join means is stated by `JoinSplit`, `SplitJoin` and `JoinSnoc` |
| `JsStrings.JoinSnoc` | src/utils/restfulApi.ts:43 | joining one more piece appends the separator and that piece |
| `JsStrings.Split` | src/utils/csvReader.ts:8 | splitting always yields at least one piece, so every CSV row has at least one field |
| `JsStrings.SplitCount` | src/utils/csvReader.ts:8 | a split has exactly one piece more than the string has separators (a row has commas + 1 fields) |
| `JsStrings.SplitPiece` | src/utils/csvReader.ts:8 | no piece contains the separator, and every character of a piece comes from the split string |
| `JsStrings.JoinSplit` | src/utils/csvReader.ts:8 | joining the pieces with the separator reproduces the string exactly |
| `JsStrings.SplitJoin` | src/utils/restfulApi.ts:43 | splitting the join of at least one separator-free piece recovers those pieces in order |
| `CsvReader.Lines` | src/utils/csvReader.ts:6 | the line split always yields at least one line |
| `CsvReader.LinesDecompose` | src/utils/csvReader.ts:6 | the content is its lines rejoined, each followed by the `"\n"` or `"\r\n"` it was cut at; no line holds `'\n'`, and the `'\r'` of a `"\r\n"` never ends up in a line |
| `CsvReader.LinesOfRejoin` | src/utils/csvReader.ts:6 | any well-formed split into lines and breaks is the one the line splitter finds (uniqueness) |
| `CsvReader.LinesWithoutCR` | src/utils/csvReader.ts:6 | without `'\r'` in the content, the line split is the split at `'\n'` |
| `CsvReader.NonEmpty` | src/utils/csvReader.ts:7 | `filter(Boolean)` keeps only non-empty lines, all taken from the input, never more than the input |
| `CsvReader.NonEmptyAppend` | src/utils/csvReader.ts:7 | the filter distributes over concatenation, so kept lines stay in input order |
| `CsvReader.BlankLineDropped` | src/utils/csvReader.ts:7 | a blank line anywhere among the lines yields nothing |
| `CsvReader.ReadCsv` | src/utils/csvReader.ts:5-8 | at most one row per line, and every row has at least one field; what the rows are is stated by `ReadCsvRows` and `ReadCsvOfLines` |
| `CsvReader.ReadCsvRows` | src/utils/csvReader.ts:5-8 | one row per non-empty line, in order; each row joined with `","` is its line; it has commas + 1 fields; no field holds `','` or `'\n'` |
| `CsvReader.ReadCsvOfLines` | src/utils/csvReader.ts:5-8 | content given as well-formed lines reads as the rows of its non-empty lines, in order |
| `CsvReader.TrailingBreakIgnored` | src/utils/csvReader.ts:6-7 | a trailing `"\r\n"`, or a trailing `"\n"` after a line not ending in `'\r'`, adds no row |
| `CsvReader.WrittenTableReadsBack` | src/utils/csvReader.ts:5-8 | a table written with `,` between fields and `\n` between rows, with or without a final newline, reads back as the same table, when no field holds `,`, `\n` or `\r` and no row is the single empty field; the empty table included |
| `CsvReader.QuotesNotSpecial` | src/utils/csvReader.ts:8 | `"a,b"` (with its quotes) reads as one row of the two fields `"a` and `b"` |
| `CsvReader.LoginFileCases` | tests/auth.spec.ts:22-24 | a header plus n three-field data rows gives exactly n cases carrying those fields, when no field holds `,`, `\n` or `\r` and the header is not the single empty field |
| `CsvReader.BlankLineBeforeHeader` | tests/auth.spec.ts:22-23 | a blank line before the header is dropped, so the next line is taken as the header and the cases are those of the file without the blank line |
| `CsvReader.SampleLoginFile` | tests/auth.spec.ts:22-29 | header plus two data lines gives exactly two cases; the first expects `success`, the second does not |
| `Environment.ProfileNamed` | src/config/environment.ts:55 | a name finds the profile with exactly that key, and finds nothing when no key matches |
| `Environment.Environments` | src/config/environment.ts:13-46 | every profile has timeout 30000, a 1280x720 viewport and its API under `/api`; only `dev` is not headless; retries are 0, 1, 2, 2 |
| `Environment.ResolveProfile` | src/config/environment.ts:48-56 | set `CI` gives `ci`; otherwise a known `ENVIRONMENT` name gives that profile, and an unset or unknown one gives `dev` |
| `Environment.GetEnvironment` | src/config/environment.ts:48-56 | the result is always one of the four table entries; `CI` takes precedence; with neither variable set it is `dev` |
| `Environment.OnlyCiAndEnvironmentMatter` | src/config/environment.ts:48-56 | two environments that agree on `CI` and `ENVIRONMENT` give the same profile |
| `Environment.NamesRoundTrip` | src/config/environment.ts:55 | each table key looks up its own profile |
| `RestfulApi.IdParams` | src/utils/restfulApi.ts:43 | one `id=` parameter per id, in input order, with the id verbatim |
| `RestfulApi.QueryString` | src/utils/restfulApi.ts:43 | the query is empty exactly when there are no ids; `QueryRoundTrip` states that it reads back as the ids |
| `RestfulApi.QueryRoundTrip` | src/utils/restfulApi.ts:43 | when no id holds `&`, splitting the query at `&` and stripping `id=` recovers the ids; the query is empty exactly for no ids |
| `RestfulApi.HashInIdIsNotEscaped` | src/utils/restfulApi.ts:43 | ids are not escaped in the query: the id `a#b` gives the URL for the id `a` followed by `#b`, which starts a fragment |
| `RestfulApi.AmpersandInIdIsNotEscaped` | src/utils/restfulApi.ts:43 | ids are not escaped: the id `3&id=5` gives the same query as the two ids `3` and `5` |
| `RestfulApi.GetAllObjects` | src/utils/restfulApi.ts:34-37 | GET on the collection URL, no body |
| `RestfulApi.GetObjectsByIds` | src/utils/restfulApi.ts:42-46 | GET whose URL `Route` reads back as the same ids in the same order (ids without `&` or `#`; `#` starts a fragment); no ids gives `baseUrl + "/objects?"`; the URL is `baseUrl + "/objects?"` followed by the query, ids unescaped |
| `RestfulApi.GetObjectById` | src/utils/restfulApi.ts:51-54 | GET on `baseUrl + "/objects/" + id`, the id inserted unescaped; no body |
| `RestfulApi.PathIdIsNotEscaped` | src/utils/restfulApi.ts:52 | ids are not escaped in the path: the id `7?x` gives the URL of id `7` followed by the query `?x`, and `a/b` a path below id `a` |
| `RestfulApi.CreateObject` | src/utils/restfulApi.ts:59-67 | POST on the collection URL, payload unchanged as body, `Content-Type: application/json` |
| `RestfulApi.UpdateObject` | src/utils/restfulApi.ts:72-80 | PUT on the object's URL, payload unchanged as body, JSON content type |
| `RestfulApi.PartialUpdateObject` | src/utils/restfulApi.ts:85-93 | PATCH on the object's URL, partial payload unchanged as body, JSON content type |
| `RestfulApi.DeleteObject` | src/utils/restfulApi.ts:98-101 | DELETE on the object's URL, no body |
| `RestfulApi.PerObjectMethodsShareUrl` | src/utils/restfulApi.ts:51-101 | get, update, patch and delete of one id target the same URL; different ids give different URLs |
| `RestfulApi.SampleDevice` | src/utils/restfulApi.ts:106-117 | the name is copied verbatim, defaulting to `Test Device`; attribute keys are distinct and in literal order, with their string and year values |
| `RestfulApi.SamplePhone` | src/utils/restfulApi.ts:122-134 | the name is copied verbatim, defaulting to `Apple iPhone 15`; attribute keys are distinct and in literal order, with their non-price values |
| `RestfulApi.SampleLaptop` | src/utils/restfulApi.ts:139-149 | the name is copied verbatim, defaulting to `Dell Laptop`; attribute keys are distinct and in literal order, with their non-price values |

## Left out

- File reading (`fs.readFileSync` in `src/utils/csvReader.ts:4` and `src/utils/jsonReader.ts:4`). Only the text-to-rows transform is modelled. `JSON.parse` is a library call and is not modelled.
- Sending requests and reading responses. The helper methods return the HTTP client's response without looking at its status, so a 404 reaches the caller as an ordinary result. The model stops at the request each method sends, so it does not state this.
- Serialising the body to JSON text. The body is the payload value itself.
- Prices in the sample payloads are floating point. They are kept as the text of their decimal literal and never computed with. The `parseFloat` sort check in `tests/optimized-e2e.spec.ts` is floating point too and is left out.
- `Environment.ProfileNamed`: looks up only the table's four own keys. In JavaScript, `environments["constructor"]` (or another inherited property name) returns an inherited value instead of falling back to `dev`; the model does not capture that.
- `RestfulApi.Route`: reads URLs literally and does not interpret the rest of URL syntax. After `/objects/` it takes everything as the id, although `/` there starts a deeper path and `?` a query. In a query it takes every id as written, although `#` starts a fragment that a client never sends (`HashInIdIsNotEscaped`). It does not decode `%` escapes, which the server does, and it does not resolve the dot-segment ids `.` and `..`. An id holding any of these is therefore not read back by the server as itself, and the model does not capture what the server reads instead.
- `RestfulApi.Attr`: holds only strings, integers and decimal literals. The source's `data` object allows any JSON value (booleans, `null`, arrays, nested objects); the model does not capture those. No property depends on them, since the payload is passed through unchanged.
- Strings are Dafny `char` sequences. JavaScript's UTF-16 code units are not modelled separately; the core only compares single ASCII characters.
- `src/utils/excelReader.ts` (a wrapper over a spreadsheet library) and `src/utils/fakerUtil.ts` (random data from a library).
- `src/utils/api.ts`: an HTTP wrapper with embedded assertions, whose only logic is URL concatenation.
- Page objects (`src/pages/*.ts`), including the timeout-swallowing visibility probe. They are DOM plumbing over the browser driver.
- Fixtures (`src/fixtures/*.ts`) and `playwright.config.ts`. Their lifecycle, worker scoping and configuration belong to the test runner.
- `src/data/testData.ts`: constants only. The model does not need them.
- The remote server's create/read/delete behaviour and the concurrent timing test in `tests/api/auth.api.spec.ts`. That server is not part of this repository, and the timing test is about concurrency and wall-clock time.

=== FILE: csv_reader.dfy ===
/** The content-to-rows transform of `readCsvSync` (src/utils/csvReader.ts):
    `content.split(/\r?\n/).filter(Boolean).map(line => line.split(','))`,
    and the data-driven login test that drops the header row and destructures each row. */
module CsvReader {
  import opened Options
  import opened JsStrings

  /** `s.split(/\r?\n/)`. The regular expression is tried left to right, so a break is a
      `'\n'` together with the one `'\r'` right before it, if there is one; a `'\r'` that
      is not directly followed by `'\n'` stays in its line. */
  function Lines(s: string): (lines: seq<string>)
    ensures |lines| >= 1
    decreases |s|
  {
    if s == [] then [""]
    else if s[0] == '\n' then [""] + Lines(s[1..])
    else if s[0] == '\r' && |s| > 1 && s[1] == '\n' then [""] + Lines(s[2..])
    else
      var rest := Lines(s[1..]);
      [[s[0]] + rest[0]] + rest[1..]
  }

  /** For each break that `Lines` cut at, whether it was `"\r\n"` (true) or `"\n"` (false). */
  ghost function Breaks(s: string): (crlf: seq<bool>)
    ensures |crlf| == |Lines(s)| - 1
    decreases |s|
  {
    if s == [] then []
    else if s[0] == '\n' then [false] + Breaks(s[1..])
    else if s[0] == '\r' && |s| > 1 && s[1] == '\n' then [true] + Breaks(s[2..])
    else Breaks(s[1..])
  }

  function LineBreak(crlf: bool): string
  {
    if crlf then "\r\n" else "\n"
  }

  predicate EndsWithCR(line: string)
  {
    |line| > 0 && line[|line| - 1] == '\r'
  }

  /** The lines put back together, each but the last followed by its break. */
  ghost function Rejoin(lines: seq<string>, crlf: seq<bool>): string
    requires |lines| >= 1 && |crlf| == |lines| - 1
    decreases |lines|
  {
    if |lines| == 1 then lines[0]
    else lines[0] + LineBreak(crlf[0]) + Rejoin(lines[1..], crlf[1..])
  }

  /** What a split into lines can look like: no line holds `'\n'`, and a line followed by a
      bare `"\n"` does not end in `'\r'` (that `'\r'` would have belonged to the break). */
  ghost predicate WellFormedLines(lines: seq<string>, crlf: seq<bool>)
  {
    && |lines| >= 1
    && |crlf| == |lines| - 1
    && (forall i :: 0 <= i < |lines| ==> '\n' !in lines[i])
    && (forall i :: 0 <= i < |crlf| && !crlf[i] ==> !EndsWithCR(lines[i]))
  }

  /** A first line that is empty although more lines follow means the content starts with a break. */
  lemma EmptyFirstLine(s: string)
    requires |Lines(s)| > 1 && Lines(s)[0] == "" && !Breaks(s)[0]
    ensures s[0] == '\n'
  {
  }

  /** Lines and breaks are a well-formed split that puts the content back together exactly:
      no `'\r'` of a `"\r\n"` ends up in a line. */
  lemma {:induction false} LinesDecompose(s: string)
    ensures WellFormedLines(Lines(s), Breaks(s))
    ensures Rejoin(Lines(s), Breaks(s)) == s
    decreases |s|
  {
    if s == [] {
    } else if s[0] == '\n' {
      LinesDecompose(s[1..]);
      BreakFirst(s, false, 1);
    } else if s[0] == '\r' && |s| > 1 && s[1] == '\n' {
      LinesDecompose(s[2..]);
      BreakFirst(s, true, 2);
    } else {
      LinesDecompose(s[1..]);
      OrdinaryFirstWellFormed(s);
      OrdinaryFirstRejoin(s);
    }
  }

  /** Induction step of `LinesDecompose` for content that starts with a break of length `k`. */
  lemma BreakFirst(s: string, crlf: bool, k: nat)
    requires k == |LineBreak(crlf)| <= |s| && s[..k] == LineBreak(crlf)
    requires Lines(s) == [""] + Lines(s[k..]) && Breaks(s) == [crlf] + Breaks(s[k..])
    requires WellFormedLines(Lines(s[k..]), Breaks(s[k..]))
    requires Rejoin(Lines(s[k..]), Breaks(s[k..])) == s[k..]
    ensures WellFormedLines(Lines(s), Breaks(s))
    ensures Rejoin(Lines(s), Breaks(s)) == s
  {
    PrependEmptyLine(Lines(s[k..]), Breaks(s[k..]), crlf);
    assert s == s[..k] + s[k..];
  }

  /** An empty line and a break in front of a well-formed split. */
  lemma PrependEmptyLine(rest: seq<string>, b: seq<bool>, crlf: bool)
    requires WellFormedLines(rest, b)
    ensures WellFormedLines([""] + rest, [crlf] + b)
    ensures Rejoin([""] + rest, [crlf] + b) == LineBreak(crlf) + Rejoin(rest, b)
  {
    var lines, breaks := [""] + rest, [crlf] + b;
    assert lines[1..] == rest && breaks[1..] == b;
    forall i | 0 <= i < |lines| ensures '\n' !in lines[i] {
      if i > 0 {
        assert lines[i] == rest[i - 1];
      }
    }
    forall i | 0 <= i < |breaks| && !breaks[i] ensures !EndsWithCR(lines[i]) {
      if i > 0 {
        assert lines[i] == rest[i - 1] && breaks[i] == b[i - 1];
      }
    }
  }

  /** One step of `Lines` and `Breaks` on content that starts with a character of a line. */
  lemma LinesOrdinaryStep(s: string)
    requires s != [] && s[0] != '\n' && !(s[0] == '\r' && |s| > 1 && s[1] == '\n')
    ensures Lines(s) == [[s[0]] + Lines(s[1..])[0]] + Lines(s[1..])[1..]
    ensures Breaks(s) == Breaks(s[1..])
  {
  }

  /** Induction step of `LinesDecompose` for content that starts with a character of a line:
      the split stays well formed. */
  lemma OrdinaryFirstWellFormed(s: string)
    requires s != [] && s[0] != '\n' && !(s[0] == '\r' && |s| > 1 && s[1] == '\n')
    requires WellFormedLines(Lines(s[1..]), Breaks(s[1..]))
    ensures WellFormedLines(Lines(s), Breaks(s))
  {
    var t := s[1..];
    var rest, b := Lines(t), Breaks(t);
    LinesOrdinaryStep(s);
    if |b| > 0 && !b[0] && rest[0] == "" {
      EmptyFirstLine(t);
      assert s[1] == '\n';
    }
    ConsWellFormed(s[0], rest, b);
  }

  /** Induction step of `LinesDecompose` for content that starts with a character of a line:
      the content is still put back together exactly. */
  lemma OrdinaryFirstRejoin(s: string)
    requires s != [] && s[0] != '\n' && !(s[0] == '\r' && |s| > 1 && s[1] == '\n')
    requires Rejoin(Lines(s[1..]), Breaks(s[1..])) == s[1..]
    ensures Rejoin(Lines(s), Breaks(s)) == s
  {
    var t := s[1..];
    LinesOrdinaryStep(s);
    ConsRejoin(s[0], Lines(t), Breaks(t), t, Lines(s), Breaks(s));
    HeadTail(s);
  }

  /** Putting a character that is not `'\n'` in front of the first line keeps the split well formed. */
  lemma ConsWellFormed(x: char, rest: seq<string>, b: seq<bool>)
    requires x != '\n'
    requires WellFormedLines(rest, b)
    requires |b| > 0 && !b[0] && rest[0] == "" ==> x != '\r'
    ensures WellFormedLines([[x] + rest[0]] + rest[1..], b)
  {
    var lines := [[x] + rest[0]] + rest[1..];
    forall i | 0 <= i < |lines| ensures '\n' !in lines[i] {
      if i > 0 {
        assert lines[i] == rest[i];
      }
    }
    forall i | 0 <= i < |b| && !b[i] ensures !EndsWithCR(lines[i]) {
      if i > 0 {
        assert lines[i] == rest[i];
      }
    }
  }

  /** Putting a character in front of the first line puts it in front of the content. */
  lemma ConsRejoin(x: char, rest: seq<string>, b: seq<bool>, t: string, lines: seq<string>, breaks: seq<bool>)
    requires |rest| >= 1 && |b| == |rest| - 1 && Rejoin(rest, b) == t
    requires lines == [[x] + rest[0]] + rest[1..] && breaks == b
    ensures Rejoin(lines, breaks) == [x] + t
  {
    if |rest| > 1 {
      assert lines[0] == [x] + rest[0] && lines[1..] == rest[1..];
      var first, br, tail := rest[0], LineBreak(b[0]), Rejoin(rest[1..], b[1..]);
      assert Rejoin(lines, b) == lines[0] + br + tail;
      assert t == first + br + tail;
      ConsAssociates(x, first, br, tail);
    }
  }

  lemma ConsAssociates(x: char, a: string, b: string, c: string)
    ensures ([x] + a) + b + c == [x] + (a + b + c)
  {
  }

  /** A line that holds no `'\n'` is its own single line, with no break. */
  lemma {:induction false} LinesOfOneLine(a: string)
    requires '\n' !in a
    ensures Lines(a) == [a] && Breaks(a) == []
    decreases |a|
  {
    if a != [] {
      LinesOfOneLine(a[1..]);
      assert [a[0]] + a[1..] == a;
    }
  }

  /** A leading well-formed line followed by its break is cut off exactly. */
  lemma {:induction false} LinesFirstLine(a: string, crlf: bool, r: string)
    requires '\n' !in a
    requires !crlf ==> !EndsWithCR(a)
    ensures Lines(a + LineBreak(crlf) + r) == [a] + Lines(r)
    ensures Breaks(a + LineBreak(crlf) + r) == [crlf] + Breaks(r)
    decreases |a|
  {
    var br := LineBreak(crlf);
    var s := a + br + r;
    if a == [] {
      DropFront(a, br, r);
    } else {
      DropFront([a[0]], a[1..] + br, r);
      HeadTail(a);
      var t := a[1..] + br + r;
      assert s[1..] == t;
      assert a[0] != '\n';
      if |a| == 1 {
        assert t == br + r && s[1] == br[0];
      } else {
        assert s[1] == a[1];
        assert a[1] in a;
        assert EndsWithCR(a[1..]) ==> EndsWithCR(a);
      }
      LinesFirstLine(a[1..], crlf, r);
    }
  }

  /** Dropping the first two parts of a three-part concatenation leaves the third. */
  lemma DropFront(a: string, b: string, c: string)
    ensures a + b + c == a + (b + c)
    ensures (a + b + c)[|a + b|..] == c && (a + b + c)[|a|..] == b + c
  {
  }

  /** Uniqueness: a well-formed split of a content is the one `Lines` finds. */
  lemma {:induction false} LinesOfRejoin(lines: seq<string>, crlf: seq<bool>)
    requires WellFormedLines(lines, crlf)
    ensures Lines(Rejoin(lines, crlf)) == lines
    ensures Breaks(Rejoin(lines, crlf)) == crlf
    decreases |lines|
  {
    if |lines| == 1 {
      LinesOfOneLine(lines[0]);
    } else {
      WellFormedTail(lines, crlf);
      LinesOfRejoin(lines[1..], crlf[1..]);
      var tail := Rejoin(lines[1..], crlf[1..]);
      assert Rejoin(lines, crlf) == lines[0] + LineBreak(crlf[0]) + tail;
      LinesFirstLine(lines[0], crlf[0], tail);
      HeadTail(lines);
      HeadTail(crlf);
    }
  }

  /** Dropping the first line and its break leaves a well-formed split. */
  lemma WellFormedTail(lines: seq<string>, crlf: seq<bool>)
    requires WellFormedLines(lines, crlf) && |lines| > 1
    ensures WellFormedLines(lines[1..], crlf[1..])
  {
    forall i | 0 <= i < |crlf| - 1 && !crlf[1..][i] ensures !EndsWithCR(lines[1..][i]) {
      assert lines[1..][i] == lines[i + 1];
    }
  }

  /** Without any `'\r'` in the content, splitting into lines is splitting at `'\n'`. */
  lemma {:induction false} LinesWithoutCR(s: string)
    requires '\r' !in s
    ensures Lines(s) == Split(s, '\n')
    decreases |s|
  {
    if s != [] {
      assert '\r' !in s[1..] by {
        assert forall k :: 0 <= k < |s| - 1 ==> s[1..][k] == s[k + 1];
      }
      LinesWithoutCR(s[1..]);
    }
  }

  /** `.filter(Boolean)` on strings: drops every empty line, keeps the rest in order. */
  function NonEmpty(lines: seq<string>): (kept: seq<string>)
    ensures forall i :: 0 <= i < |kept| ==> kept[i] != ""
    ensures forall x :: x in kept ==> x in lines
    ensures |kept| <= |lines|
  {
    if lines == [] then []
    else if lines[0] == "" then NonEmpty(lines[1..])
    else [lines[0]] + NonEmpty(lines[1..])
  }

  /** Filtering distributes over concatenation, so the kept lines keep their order. */
  lemma {:induction false} NonEmptyAppend(a: seq<string>, b: seq<string>)
    ensures NonEmpty(a + b) == NonEmpty(a) + NonEmpty(b)
    decreases |a|
  {
    if a == [] {
      assert a + b == b;
    } else {
      assert (a + b)[0] == a[0];
      assert (a + b)[1..] == a[1..] + b;
      NonEmptyAppend(a[1..], b);
    }
  }

  /** Lines that are all non-empty are all kept. */
  lemma {:induction false} NonEmptyKeepsAll(lines: seq<string>)
    requires forall i :: 0 <= i < |lines| ==> lines[i] != ""
    ensures NonEmpty(lines) == lines
    decreases |lines|
  {
    if lines != [] {
      NonEmptyKeepsAll(lines[1..]);
    }
  }

  /** A blank line anywhere produces nothing. */
  lemma BlankLineDropped(a: seq<string>, b: seq<string>)
    ensures NonEmpty(a + [""] + b) == NonEmpty(a + b)
  {
    NonEmptyAppend(a + [""], b);
    NonEmptyAppend(a, [""]);
    NonEmptyAppend(a, b);
    assert a + [""] + [] == a + [""];
  }

  /** `line.split(',')`: quotes are not special. */
  function Fields(line: string): seq<string>
  {
    Split(line, ',')
  }

  function RowsOf(lines: seq<string>): seq<seq<string>>
  {
    seq(|lines|, i requires 0 <= i < |lines| => Fields(lines[i]))
  }

  /** `readCsvSync` without its file read. */
  function ReadCsv(content: string): (rows: seq<seq<string>>)
    ensures |rows| <= |Lines(content)|
    ensures forall i :: 0 <= i < |rows| ==> |rows[i]| >= 1
  {
    RowsOf(NonEmpty(Lines(content)))
  }

  /** One row per non-empty line, in order; each row joined with `","` is its line again,
      has one field more than the line has commas, and no field holds `','` or `'\n'`. */
  lemma ReadCsvRows(content: string)
    ensures |ReadCsv(content)| == |NonEmpty(Lines(content))|
    ensures forall i :: 0 <= i < |ReadCsv(content)| ==>
      Join(ReadCsv(content)[i], ',') == NonEmpty(Lines(content))[i]
    ensures forall i :: 0 <= i < |ReadCsv(content)| ==>
      |ReadCsv(content)[i]| == Count(NonEmpty(Lines(content))[i], ',') + 1
    ensures forall i, j :: 0 <= i < |ReadCsv(content)| && 0 <= j < |ReadCsv(content)[i]| ==>
      ',' !in ReadCsv(content)[i][j] && '\n' !in ReadCsv(content)[i][j]
  {
    var kept := NonEmpty(Lines(content));
    var rows := ReadCsv(content);
    LinesDecompose(content);
    forall i | 0 <= i < |rows|
      ensures Join(rows[i], ',') == kept[i]
      ensures |rows[i]| == Count(kept[i], ',') + 1
    {
      JoinSplit(kept[i], ',');
      SplitCount(kept[i], ',');
    }
    forall i, j | 0 <= i < |rows| && 0 <= j < |rows[i]|
      ensures ',' !in rows[i][j] && '\n' !in rows[i][j]
    {
      assert kept[i] in Lines(content);
      SplitPiece(kept[i], ',', j);
    }
  }

  /** Reading a content given as well-formed lines gives the rows of its non-empty lines. */
  lemma ReadCsvOfLines(lines: seq<string>, crlf: seq<bool>)
    requires WellFormedLines(lines, crlf)
    ensures ReadCsv(Rejoin(lines, crlf)) == RowsOf(NonEmpty(lines))
  {
    LinesOfRejoin(lines, crlf);
  }

  /** A trailing line break adds no row (when the content does not end in a lone `'\r'`,
      which the break would otherwise absorb). */
  lemma TrailingBreakIgnored(content: string, crlf: bool)
    requires crlf || !EndsWithCR(content)
    ensures ReadCsv(content + LineBreak(crlf)) == ReadCsv(content)
  {
    LinesDecompose(content);
    var lines, b := Lines(content), Breaks(content);
    var n := |lines|;
    RejoinSnoc(lines, b, crlf);
    if !crlf {
      RejoinEndsWithLast(lines, b);
    }
    assert WellFormedLines(lines + [""], b + [crlf]) by {
      forall i | 0 <= i < |b| + 1 && !(b + [crlf])[i] ensures !EndsWithCR((lines + [""])[i]) {
        if i < |b| {
          assert (b + [crlf])[i] == b[i];
        }
      }
    }
    LinesOfRejoin(lines + [""], b + [crlf]);
    NonEmptyAppend(lines, [""]);
  }

  lemma {:induction false} RejoinSnoc(lines: seq<string>, crlf: seq<bool>, last: bool)
    requires |lines| >= 1 && |crlf| == |lines| - 1
    ensures Rejoin(lines + [""], crlf + [last]) == Rejoin(lines, crlf) + LineBreak(last)
    decreases |lines|
  {
    if |lines| == 1 {
      assert (lines + [""])[1..] == [""];
      assert (crlf + [last]) == [last];
    } else {
      assert (lines + [""])[1..] == lines[1..] + [""];
      assert (crlf + [last])[1..] == crlf[1..] + [last];
      RejoinSnoc(lines[1..], crlf[1..], last);
    }
  }

  /** The content ends with its last line. */
  lemma {:induction false} RejoinEndsWithLast(lines: seq<string>, crlf: seq<bool>)
    requires |lines| >= 1 && |crlf| == |lines| - 1
    ensures EndsWithCR(lines[|lines| - 1]) ==> EndsWithCR(Rejoin(lines, crlf))
    decreases |lines|
  {
    if |lines| > 1 {
      RejoinEndsWithLast(lines[1..], crlf[1..]);
    }
  }

  /** Every field written out has no comma, line feed or carriage return, and the row is not
      the single empty field (that would write a blank line). */
  predicate WritableRow(row: seq<string>)
  {
    && |row| >= 1
    && row != [""]
    && forall j :: 0 <= j < |row| ==> ',' !in row[j] && '\n' !in row[j] && '\r' !in row[j]
  }

  /** Each row written as one line, its fields joined by `","`. */
  function WriteRows(table: seq<seq<string>>): seq<string>
  {
    seq(|table|, i requires 0 <= i < |table| => Join(table[i], ','))
  }

  /** Round trip: a table written with `","` between fields and `"\n"` between rows, with or
      without a final `"\n"`, reads back as the same table, when no field holds `','`, `'\n'`
      or `'\r'` and no row is the single empty field. */
  lemma WrittenTableReadsBack(table: seq<seq<string>>)
    requires forall i :: 0 <= i < |table| ==> WritableRow(table[i])
    ensures ReadCsv(Join(WriteRows(table), '\n')) == table
    ensures ReadCsv(Join(WriteRows(table), '\n') + "\n") == table
  {
    if table == [] {
      EmptyTableReadsBack();
    } else {
      NonEmptyTableReadsBack(table);
    }
  }

  /** The empty table writes as the empty content, which reads back as no rows, and so does a
      lone `"\n"`. */
  lemma EmptyTableReadsBack()
    ensures ReadCsv(Join(WriteRows([]), '\n')) == []
    ensures ReadCsv(Join(WriteRows([]), '\n') + "\n") == []
  {
    assert Join(WriteRows([]), '\n') == "";
    assert "" + "\n" == "\n";
    assert Lines("") == [""];
    assert Lines("\n") == ["", ""] by {
      assert "\n"[1..] == "";
    }
    assert NonEmpty(["", ""]) == [] by {
      assert ["", ""][1..] == [""];
      assert NonEmpty([""]) == [] by {
        assert [""][1..] == [];
      }
    }
  }

  lemma NonEmptyTableReadsBack(table: seq<seq<string>>)
    requires |table| >= 1
    requires forall i :: 0 <= i < |table| ==> WritableRow(table[i])
    ensures ReadCsv(Join(WriteRows(table), '\n')) == table
    ensures ReadCsv(Join(WriteRows(table), '\n') + "\n") == table
  {
    var lines := WriteRows(table);
    forall i | 0 <= i < |lines|
      ensures '\n' !in lines[i] && '\r' !in lines[i] && lines[i] != ""
    {
      JoinAvoids(table[i], ',', '\n');
      JoinAvoids(table[i], ',', '\r');
      JoinStartsWithFirst(table[i], ',');
      if |table[i]| > 1 {
        assert lines[i][|table[i][0]|] == ',';
      }
    }
    NonEmptyKeepsAll(lines);
    forall i | 0 <= i < |table| ensures Fields(lines[i]) == table[i] {
      SplitJoin(table[i], ',');
    }
    var content := Join(lines, '\n');
    JoinAvoids(lines, '\n', '\r');
    LinesWithoutCR(content);
    SplitJoin(lines, '\n');

    JoinSnoc(lines, "", '\n');
    var longer := lines + [""];
    assert content + "\n" == Join(longer, '\n');
    assert forall i :: 0 <= i < |longer| ==> '\r' !in longer[i] && '\n' !in longer[i];
    JoinAvoids(longer, '\n', '\r');
    LinesWithoutCR(content + "\n");
    SplitJoin(longer, '\n');
    NonEmptyAppend(lines, [""]);
  }

  /** The login test's reading of one row: `const [username, password, expected] = row`. */
  datatype LoginCase = LoginCase(username: Option<string>, password: Option<string>, expected: Option<string>)

  function FieldAt(row: seq<string>, k: nat): Option<string>
  {
    if k < |row| then Some(row[k]) else None
  }

  function CaseOf(row: seq<string>): LoginCase
  {
    LoginCase(FieldAt(row, 0), FieldAt(row, 1), FieldAt(row, 2))
  }

  /** `const [, ...data] = rows` followed by the destructuring of each data row. */
  function LoginCases(rows: seq<seq<string>>): seq<LoginCase>
  {
    if rows == [] then []
    else seq(|rows| - 1, i requires 0 <= i < |rows| - 1 => CaseOf(rows[i + 1]))
  }

  /** The test succeeds on the inventory page only for `expected === 'success'`. */
  predicate ExpectsSuccess(c: LoginCase)
  {
    c.expected == Some("success")
  }

  /** A header followed by data rows of three fields gives one login case per data row,
      in order, with every field present. */
  lemma LoginFileCases(header: seq<string>, data: seq<seq<string>>)
    requires WritableRow(header)
    requires forall i :: 0 <= i < |data| ==> WritableRow(data[i]) && |data[i]| == 3
    ensures |LoginCases(ReadCsv(Join(WriteRows([header] + data), '\n')))| == |data|
    ensures forall i :: 0 <= i < |data| ==>
      LoginCases(ReadCsv(Join(WriteRows([header] + data), '\n')))[i]
        == LoginCase(Some(data[i][0]), Some(data[i][1]), Some(data[i][2]))
  {
    var table := [header] + data;
    forall i | 0 <= i < |table| ensures WritableRow(table[i]) {
      if i > 0 {
        assert table[i] == data[i - 1];
      }
    }
    WrittenTableReadsBack(table);
    var rows := ReadCsv(Join(WriteRows(table), '\n'));
    assert rows == table;
    forall i | 0 <= i < |data|
      ensures LoginCases(rows)[i] == LoginCase(Some(data[i][0]), Some(data[i][1]), Some(data[i][2]))
    {
      assert rows[i + 1] == data[i];
    }
  }

  /** A login file with a header and two data lines gives exactly two cases; the first
      expects to reach the inventory page and the second does not. */
  lemma SampleLoginFile()
    ensures var cases := LoginCases(ReadCsv(Join(WriteRows([
      ["username", "password", "expected"],
      ["standard_user", "secret_sauce", "success"],
      ["locked_out_user", "secret_sauce", "failure"]]), '\n')));
      |cases| == 2 && ExpectsSuccess(cases[0]) && !ExpectsSuccess(cases[1])
  {
    var header := ["username", "password", "expected"];
    var first := ["standard_user", "secret_sauce", "success"];
    var second := ["locked_out_user", "secret_sauce", "failure"];
    SampleRowsWritable(header, first, second);
    LoginFileCases(header, [first, second]);
    assert [header] + [first, second] == [header, first, second];
  }

  lemma SampleRowsWritable(header: seq<string>, first: seq<string>, second: seq<string>)
    requires header == ["username", "password", "expected"]
    requires first == ["standard_user", "secret_sauce", "success"]
    requires second == ["locked_out_user", "secret_sauce", "failure"]
    ensures WritableRow(header) && WritableRow(first) && WritableRow(second)
  {
    ThreeFieldsWritable(header[0], header[1], header[2]);
    ThreeFieldsWritable(first[0], first[1], first[2]);
    ThreeFieldsWritable(second[0], second[1], second[2]);
  }

  predicate PlainField(f: string)
  {
    ',' !in f && '\n' !in f && '\r' !in f
  }

  lemma ThreeFieldsWritable(a: string, b: string, c: string)
    requires PlainField(a) && PlainField(b) && PlainField(c)
    ensures WritableRow([a, b, c])
  {
  }

  /** A blank line before the header is dropped, so the line after it is taken as the header:
      the file reads as if the blank line were not there. */
  lemma BlankLineBeforeHeader(content: string)
    ensures ReadCsv("\n" + content) == ReadCsv(content)
    ensures LoginCases(ReadCsv("\n" + content)) == LoginCases(ReadCsv(content))
  {
    var s := "\n" + content;
    assert s[0] == '\n' && s[1..] == content;
    assert Lines(s) == [""] + Lines(content);
    assert ([""] + Lines(content))[1..] == Lines(content);
  }

  /** Quotes are not special: `"a,b"` is two fields, `"a` and `b"`. */
  lemma QuotesNotSpecial()
    ensures ReadCsv("\"a,b\"") == [["\"a", "b\""]]
  {
    var table := [["\"a", "b\""]];
    assert Join(table[0], ',') == "\"a,b\"";
    assert WriteRows(table) == ["\"a,b\""];
    assert Join(WriteRows(table), '\n') == "\"a,b\"";
    WrittenTableReadsBack(table);
  }
}

=== FILE: environment.dfy ===
/** The `environments` table and `getEnvironment` (src/config/environment.ts). The process
    environment is a parameter: a map from variable names to their string values. */
module Environment {
  import opened Options

  /** The four entries of the table, by key. */
  datatype Profile = Dev | Staging | Prod | Ci

  datatype Viewport = Viewport(width: int, height: int)

  datatype EnvironmentConfig = EnvironmentConfig(
    baseUrl: string,
    apiUrl: string,
    timeout: int,
    retries: int,
    headless: bool,
    viewport: Viewport)

  /** The key of a profile in the table. */
  function Name(p: Profile): string
  {
    match p
    case Dev => "dev"
    case Staging => "staging"
    case Prod => "prod"
    case Ci => "ci"
  }

  /** `environments[name]`, over the four own keys of the table only. */
  function ProfileNamed(name: string): (p: Option<Profile>)
    ensures p.Some? ==> Name(p.value) == name
    ensures p.None? ==> forall q :: Name(q) != name
  {
    if name == "dev" then Some(Dev)
    else if name == "staging" then Some(Staging)
    else if name == "prod" then Some(Prod)
    else if name == "ci" then Some(Ci)
    else None
  }

  /** The table. Every entry waits 30 seconds and uses a 1280x720 viewport, its API lives
      under `/api` of its site, only `dev` shows the browser, and the retry counts are
      0, 1, 2 and 2 for dev, staging, prod and ci. */
  function Environments(p: Profile): (c: EnvironmentConfig)
    ensures c.timeout == 30000 && c.viewport == Viewport(1280, 720)
    ensures c.apiUrl == c.baseUrl + "/api"
    ensures c.headless <==> p != Dev
    ensures c.retries == 0 <==> p == Dev
    ensures c.retries == 1 <==> p == Staging
    ensures c.retries == 2 <==> p == Prod || p == Ci
  {
    match p
    case Dev =>
      EnvironmentConfig("https://www.saucedemo.com", "https://www.saucedemo.com/api", 30000, 0, false, Viewport(1280, 720))
    case Staging =>
      EnvironmentConfig("https://staging.saucedemo.com", "https://staging.saucedemo.com/api", 30000, 1, true, Viewport(1280, 720))
    case Prod =>
      EnvironmentConfig("https://www.saucedemo.com", "https://www.saucedemo.com/api", 30000, 2, true, Viewport(1280, 720))
    case Ci =>
      EnvironmentConfig("https://www.saucedemo.com", "https://www.saucedemo.com/api", 30000, 2, true, Viewport(1280, 720))
  }

  /** `process.env[key]` is truthy: the variable is present and not the empty string.
      Any other value, `"false"` and `"0"` included, counts as set. */
  predicate IsSet(env: map<string, string>, key: string)
  {
    key in env && env[key] != ""
  }

  /** The profile `getEnvironment` picks: a set `CI` wins; otherwise the name in
      `ENVIRONMENT` (default `dev`) if it is a key of the table, and `dev` if it is not. */
  function ResolveProfile(env: map<string, string>): (p: Profile)
    ensures IsSet(env, "CI") ==> p == Ci
    ensures !IsSet(env, "CI") && !IsSet(env, "ENVIRONMENT") ==> p == Dev
    ensures !IsSet(env, "CI") && IsSet(env, "ENVIRONMENT") ==>
      (forall q :: Name(q) == env["ENVIRONMENT"] ==> p == q)
    ensures !IsSet(env, "CI") && IsSet(env, "ENVIRONMENT") && (forall q :: Name(q) != env["ENVIRONMENT"]) ==>
      p == Dev
  {
    if IsSet(env, "CI") then Ci
    else
      var name := if IsSet(env, "ENVIRONMENT") then env["ENVIRONMENT"] else "dev";
      ProfileNamed(name).GetOr(Dev)
  }

  /** `getEnvironment()`: always one of the four table entries, never an error. */
  function GetEnvironment(env: map<string, string>): (c: EnvironmentConfig)
    ensures c == Environments(Dev) || c == Environments(Staging) || c == Environments(Prod) || c == Environments(Ci)
    ensures IsSet(env, "CI") ==> c == Environments(Ci)
    ensures !IsSet(env, "CI") && !IsSet(env, "ENVIRONMENT") ==> c == Environments(Dev)
    ensures c.timeout == 30000 && c.viewport == Viewport(1280, 720)
  {
    Environments(ResolveProfile(env))
  }

  /** Both environments lack `key`, or both hold it with the same value. */
  predicate AgreeOn(env1: map<string, string>, env2: map<string, string>, key: string)
  {
    (key in env1 <==> key in env2) && (key in env1 ==> env1[key] == env2[key])
  }

  /** Two environments that agree on `CI` and `ENVIRONMENT` resolve to the same profile,
      whatever else they hold. */
  lemma OnlyCiAndEnvironmentMatter(env1: map<string, string>, env2: map<string, string>)
    requires AgreeOn(env1, env2, "CI") && AgreeOn(env1, env2, "ENVIRONMENT")
    ensures ResolveProfile(env1) == ResolveProfile(env2)
    ensures GetEnvironment(env1) == GetEnvironment(env2)
  {
  }

  /** Every key of the table names its own entry. */
  lemma NamesRoundTrip(p: Profile)
    ensures ProfileNamed(Name(p)) == Some(p)
  {
  }
}

=== FILE: js_strings.dfy ===
/** The two JavaScript string operations the core is built from, for a one-character
    separator: `String.prototype.split(c)` and `Array.prototype.join(c)`. */
module JsStrings {

  /** A non-empty sequence is its head followed by its tail. */
  lemma HeadTail<T>(s: seq<T>)
    requires s != []
    ensures [s[0]] + s[1..] == s
  {
  }

  /** Number of occurrences of `c` in `s`. */
  function Count(s: string, c: char): nat
    decreases |s|
  {
    if s == [] then 0 else (if s[0] == c then 1 else 0) + Count(s[1..], c)
  }

  /** `s.split(c)`: the pieces between the occurrences of `c`, left to right.
      The empty string gives one empty piece, as in JavaScript. */
  function Split(s: string, c: char): (parts: seq<string>)
    ensures |parts| >= 1
    decreases |s|
  {
    if s == [] then [""]
    else
      var rest := Split(s[1..], c);
      if s[0] == c then [""] + rest
      else [[s[0]] + rest[0]] + rest[1..]
  }

  /** `parts.join(c)`; an empty array joins to the empty string. */
  function Join(parts: seq<string>, c: char): (s: string)
    ensures parts == [] ==> s == ""
    ensures |parts| == 1 ==> s == parts[0]
  {
    if |parts| == 0 then ""
    else if |parts| == 1 then parts[0]
    else parts[0] + [c] + Join(parts[1..], c)
  }

  /** Splitting gives one more piece than there are separators. */
  lemma {:induction false} SplitCount(s: string, c: char)
    ensures |Split(s, c)| == Count(s, c) + 1
    decreases |s|
  {
    if s != [] {
      SplitCount(s[1..], c);
    }
  }

  /** No piece holds the separator, and every character of a piece comes from `s`. */
  lemma {:induction false} SplitPiece(s: string, c: char, i: nat)
    requires i < |Split(s, c)|
    ensures c !in Split(s, c)[i]
    ensures forall x :: x in Split(s, c)[i] ==> x in s
    decreases |s|
  {
    if s != [] {
      var rest := Split(s[1..], c);
      assert s == [s[0]] + s[1..];
      if s[0] == c {
        if i > 0 {
          SplitPiece(s[1..], c, i - 1);
        }
      } else {
        SplitPiece(s[1..], c, i);
        if i == 0 {
          assert Split(s, c)[0] == [s[0]] + rest[0];
        }
      }
    }
  }

  /** Joining the pieces with the separator gives back the string (round trip). */
  lemma {:induction false} JoinSplit(s: string, c: char)
    ensures Join(Split(s, c), c) == s
    decreases |s|
  {
    if s != [] {
      var rest := Split(s[1..], c);
      JoinSplit(s[1..], c);
      if s[0] == c {
        assert Split(s, c) == [""] + rest;
        assert ([""] + rest)[1..] == rest;
      } else if |rest| == 1 {
        assert Split(s, c) == [[s[0]] + rest[0]];
      } else {
        var parts := Split(s, c);
        assert parts == [[s[0]] + rest[0]] + rest[1..];
        assert parts[1..] == rest[1..];
        calc {
          Join(parts, c);
          [s[0]] + rest[0] + [c] + Join(rest[1..], c);
          [s[0]] + (rest[0] + [c] + Join(rest[1..], c));
          [s[0]] + Join(rest, c);
          s;
        }
      }
    }
  }

  /** A string without the separator is a single piece. */
  lemma {:induction false} SplitWithoutSeparator(a: string, c: char)
    requires c !in a
    ensures Split(a, c) == [a]
    decreases |a|
  {
    if a != [] {
      SplitWithoutSeparator(a[1..], c);
      assert [a[0]] + a[1..] == a;
    }
  }

  /** A leading piece without the separator is split off exactly. */
  lemma {:induction false} SplitFirstPiece(a: string, c: char, b: string)
    requires c !in a
    ensures Split(a + [c] + b, c) == [a] + Split(b, c)
    decreases |a|
  {
    if a == [] {
      assert a + [c] + b == [c] + b;
      assert ([c] + b)[1..] == b;
    } else {
      var s := a + [c] + b;
      assert s[1..] == a[1..] + [c] + b;
      SplitFirstPiece(a[1..], c, b);
      assert [a[0]] + a[1..] == a;
    }
  }

  /** Splitting the join of pieces without the separator recovers the pieces (round trip). */
  lemma {:induction false} SplitJoin(parts: seq<string>, c: char)
    requires |parts| >= 1
    requires forall i :: 0 <= i < |parts| ==> c !in parts[i]
    ensures Split(Join(parts, c), c) == parts
    decreases |parts|
  {
    if |parts| == 1 {
      SplitWithoutSeparator(parts[0], c);
    } else {
      SplitJoin(parts[1..], c);
      SplitFirstPiece(parts[0], c, Join(parts[1..], c));
      assert [parts[0]] + parts[1..] == parts;
    }
  }

  /** Appending one more piece adds the separator and the piece at the end. */
  lemma {:induction false} JoinSnoc(parts: seq<string>, p: string, c: char)
    requires |parts| >= 1
    ensures Join(parts + [p], c) == Join(parts, c) + [c] + p
    decreases |parts|
  {
    if |parts| == 1 {
      assert (parts + [p])[1..] == [p];
    } else {
      assert (parts + [p])[1..] == parts[1..] + [p];
      JoinSnoc(parts[1..], p, c);
    }
  }

  /** A character that is not the separator and occurs in no piece does not occur in the join. */
  lemma {:induction false} JoinAvoids(parts: seq<string>, c: char, x: char)
    requires x != c
    requires forall i :: 0 <= i < |parts| ==> x !in parts[i]
    ensures x !in Join(parts, c)
    decreases |parts|
  {
    if |parts| > 1 {
      JoinAvoids(parts[1..], c, x);
    }
  }

  /** The join starts with the first piece. */
  lemma {:induction false} JoinStartsWithFirst(parts: seq<string>, c: char)
    requires |parts| >= 1
    ensures |Join(parts, c)| >= |parts[0]| && Join(parts, c)[..|parts[0]|] == parts[0]
  {
    if |parts| > 1 {
      var rest := [c] + Join(parts[1..], c);
      assert Join(parts, c) == parts[0] + rest;
    }
  }
}

=== FILE: options.dfy ===
/** An optional value: JavaScript's `undefined` for a missing argument, field or lookup. */
module Options {

  datatype Option<+T> = None | Some(value: T) {

    /** The value, or `default` when there is none (a JavaScript default parameter or `||`). */
    function GetOr(default: T): T
    {
      match this
      case Some(v) => v
      case None => default
    }
  }
}

=== FILE: restful_api.dfy ===
/** `RestfulApiHelper` (src/utils/restfulApi.ts): what request each helper method sends, as a
    verb, a URL, headers and a body, and the sample payloads it builds. Sending the request
    and reading the response are not part of this model. */
module RestfulApi {
  import opened Options
  import opened JsStrings

  /** The helper's `baseUrl` field, set once and never changed. */
  const BaseUrl: string := "https://api.restful-api.dev"

  datatype Verb = GET | POST | PUT | PATCH | DELETE

  /** A value inside a device's `data` object. A price is kept as the text of its decimal
      literal and never computed with. */
  datatype Attr = Text(text: string) | Whole(n: int) | Decimal(literal: string)

  /** The `data` object: its keys with their values, in the order the literal writes them. */
  type Attributes = seq<(string, Attr)>

  /** `DeviceData`: a name and optional attributes. */
  datatype DeviceData = DeviceData(name: string, data: Option<Attributes>)

  /** `Partial<DeviceData>`: the payload of a partial update, where the name may be absent. */
  datatype PartialDeviceData = PartialDeviceData(name: Option<string>, data: Option<Attributes>)

  datatype Payload = Full(device: DeviceData) | Partial(patch: PartialDeviceData)

  datatype Request = Request(verb: Verb, url: string, headers: seq<(string, string)>, body: Option<Payload>)

  /** The headers sent with every request that carries a body. */
  const JsonHeaders: seq<(string, string)> := [("Content-Type", "application/json")]

  /** What a URL addresses: the whole collection, a list of ids, or one object. */
  datatype Target = Collection | ByIds(ids: seq<string>) | ById(id: string)

  /** `${this.baseUrl}/objects`. */
  function CollectionUrl(): string
  {
    BaseUrl + "/objects"
  }

  /** `${this.baseUrl}/objects/${id}`: the id is inserted as it is, nothing escaped. */
  function ObjectUrl(id: string): string
  {
    CollectionUrl() + "/" + id
  }

  /** `ids.map(id => `id=${id}`)`. */
  function IdParams(ids: seq<string>): (params: seq<string>)
    ensures |params| == |ids|
    ensures forall i :: 0 <= i < |ids| ==> params[i] == "id=" + ids[i]
  {
    if ids == [] then [] else ["id=" + ids[0]] + IdParams(ids[1..])
  }

  /** `ids.map(id => `id=${id}`).join('&')`. */
  function QueryString(ids: seq<string>): (q: string)
    ensures q == "" <==> ids == []
  {
    var params := IdParams(ids);
    if ids != [] then
      JoinStartsWithFirst(params, '&');
      Join(params, '&')
    else
      Join(params, '&')
  }

  /** Removes the `id=` in front of every parameter; fails if one lacks it. */
  function StripIdPrefixes(params: seq<string>): (ids: Option<seq<string>>)
    ensures ids.Some? ==> |ids.value| == |params|
  {
    if params == [] then Some([])
    else if |params[0]| >= 3 && params[0][..3] == "id=" then
      match StripIdPrefixes(params[1..])
      case Some(rest) => Some([params[0][3..]] + rest)
      case None => None
    else None
  }

  /** Reads a query string back: split at `&`, strip each `id=`. The empty query is no ids. */
  function ParseQuery(q: string): Option<seq<string>>
  {
    if q == "" then Some([]) else StripIdPrefixes(Split(q, '&'))
  }

  /** Reads a URL of this helper back, literally. Everything after `/objects/` is the id, and
      the query is only split at `&` and stripped of `id=`: `/`, `?`, `#`, `%` escapes and dot
      segments are not read as URL syntax. */
  function Route(url: string): Option<Target>
  {
    var n := |CollectionUrl()|;
    if |url| < n || url[..n] != CollectionUrl() then None
    else
      var rest := url[n..];
      if rest == "" then Some(Collection)
      else if rest[0] == '?' then
        match ParseQuery(rest[1..])
        case Some(ids) => Some(ByIds(ids))
        case None => None
      else if rest[0] == '/' then Some(ById(rest[1..]))
      else None
  }

  /** The collection URL followed by `tail` reads back to what `tail` says. */
  lemma RouteOfTail(tail: string)
    ensures (CollectionUrl() + tail)[..|CollectionUrl()|] == CollectionUrl()
    ensures (CollectionUrl() + tail)[|CollectionUrl()|..] == tail
  {
  }

  lemma {:induction false} StripIdPrefixesOfParams(ids: seq<string>)
    ensures StripIdPrefixes(IdParams(ids)) == Some(ids)
    decreases |ids|
  {
    if ids != [] {
      var params := IdParams(ids);
      IdPrefixSplits(ids[0], params[0]);
      assert params[1..] == IdParams(ids[1..]);
      StripIdPrefixesOfParams(ids[1..]);
      HeadTail(ids);
    }
  }

  lemma IdPrefixSplits(id: string, param: string)
    requires param == "id=" + id
    ensures |param| >= 3 && param[..3] == "id=" && param[3..] == id
  {
  }

  /** Round trip: when no id holds `&`, splitting the query at `&` and stripping each `id=`
      gives back the ids, in order. The empty list gives the empty query. */
  lemma QueryRoundTrip(ids: seq<string>)
    requires forall i :: 0 <= i < |ids| ==> '&' !in ids[i]
    ensures ParseQuery(QueryString(ids)) == Some(ids)
    ensures QueryString(ids) == "" <==> ids == []
  {
    var params := IdParams(ids);
    if ids != [] {
      forall i | 0 <= i < |params| ensures '&' !in params[i] {
        assert params[i] == "id=" + ids[i];
      }
      JoinStartsWithFirst(params, '&');
      assert |QueryString(ids)| >= 3;
      SplitJoin(params, '&');
      StripIdPrefixesOfParams(ids);
    }
  }

  /** Ids go into the query unescaped: an id holding `#` gives the URL of the id before it,
      followed by a fragment. */
  lemma HashInIdIsNotEscaped()
    ensures GetObjectsByIds(["a#b"]).url == GetObjectsByIds(["a"]).url + "#b"
  {
    var one, plain := IdParams(["a#b"]), IdParams(["a"]);
    assert |one| == 1 && one[0] == "id=" + "a#b";
    assert |plain| == 1 && plain[0] == "id=" + "a";
    assert QueryString(["a#b"]) == "id=" + "a#b";
    assert QueryString(["a"]) == "id=" + "a";
    assert "id=" + "a#b" == ("id=" + "a") + "#b";
  }

  /** Ids go in unescaped: an id holding `&id=` gives the same query as two ids. */
  lemma AmpersandInIdIsNotEscaped()
    ensures QueryString(["3&id=5"]) == QueryString(["3", "5"])
  {
    var one, two := IdParams(["3&id=5"]), IdParams(["3", "5"]);
    assert "id=" + "3&id=5" == "id=3&id=5";
    assert "id=" + "3" == "id=3" && "id=" + "5" == "id=5";
    assert one[0] == "id=3&id=5";
    assert two[0] == "id=3" && two[1] == "id=5";
    assert one == ["id=3&id=5"];
    assert two == ["id=3", "id=5"];
    assert two[1..] == ["id=5"];
    assert Join(["id=3", "id=5"], '&') == "id=3" + "&" + "id=5";
  }

  /** Ids go into the path unescaped too: a `?` in an id starts a query and a `/` in an id
      a deeper path, so these ids address other resources than their text suggests. */
  lemma PathIdIsNotEscaped()
    ensures ObjectUrl("7?x") == ObjectUrl("7") + "?x"
    ensures ObjectUrl("a/b") == ObjectUrl("a") + "/b"
  {
    assert "/" + "7?x" == "/" + "7" + "?x";
    assert "/" + "a/b" == "/" + "a" + "/b";
  }

  /** `getAllObjects()`: GET on the collection, without a body. */
  function GetAllObjects(): (r: Request)
    ensures r.verb == GET && Route(r.url) == Some(Collection)
    ensures r.headers == [] && r.body == None
  {
    RouteOfTail("");
    Request(GET, CollectionUrl(), [], None)
  }

  /** `getObjectsByIds(ids)`: GET on `/objects?` and the query. `Route` reads the URL back as
      the same ids in the same order when no id holds `&`; an empty list leaves nothing after
      `?`. An id holding `#` starts a fragment (`HashInIdIsNotEscaped`). */
  function GetObjectsByIds(ids: seq<string>): (r: Request)
    ensures r.verb == GET && r.headers == [] && r.body == None
    ensures (forall i :: 0 <= i < |ids| ==> '&' !in ids[i]) ==> Route(r.url) == Some(ByIds(ids))
    ensures ids == [] ==> r.url == BaseUrl + "/objects?"
    ensures r.url == CollectionUrl() + "?" + QueryString(ids)
  {
    var url := CollectionUrl() + "?" + QueryString(ids);
    RouteOfTail("?" + QueryString(ids));
    assert url == CollectionUrl() + ("?" + QueryString(ids));
    assert (forall i :: 0 <= i < |ids| ==> '&' !in ids[i]) ==> ParseQuery(QueryString(ids)) == Some(ids) by {
      if forall i :: 0 <= i < |ids| ==> '&' !in ids[i] {
        QueryRoundTrip(ids);
      }
    }
    Request(GET, url, [], None)
  }

  /** `getObjectById(id)`: GET on `baseUrl + "/objects/" + id`, the id inserted unescaped. */
  function GetObjectById(id: string): (r: Request)
    ensures r.verb == GET && Route(r.url) == Some(ById(id))
    ensures r.headers == [] && r.body == None
  {
    RouteOfTail("/" + id);
    assert ObjectUrl(id) == CollectionUrl() + ("/" + id);
    Request(GET, ObjectUrl(id), [], None)
  }

  /** `createObject(data)`: POST on the collection, the payload sent unchanged as JSON. */
  function CreateObject(data: DeviceData): (r: Request)
    ensures r.verb == POST && Route(r.url) == Some(Collection)
    ensures r.headers == JsonHeaders && r.body == Some(Full(data))
  {
    RouteOfTail("");
    Request(POST, CollectionUrl(), JsonHeaders, Some(Full(data)))
  }

  /** `updateObject(id, data)`: PUT on the object's URL, the payload sent unchanged as JSON. */
  function UpdateObject(id: string, data: DeviceData): (r: Request)
    ensures r.verb == PUT && Route(r.url) == Some(ById(id))
    ensures r.headers == JsonHeaders && r.body == Some(Full(data))
  {
    RouteOfTail("/" + id);
    assert ObjectUrl(id) == CollectionUrl() + ("/" + id);
    Request(PUT, ObjectUrl(id), JsonHeaders, Some(Full(data)))
  }

  /** `partialUpdateObject(id, data)`: PATCH on the object's URL, the partial payload sent
      unchanged as JSON. */
  function PartialUpdateObject(id: string, data: PartialDeviceData): (r: Request)
    ensures r.verb == PATCH && Route(r.url) == Some(ById(id))
    ensures r.headers == JsonHeaders && r.body == Some(Partial(data))
  {
    RouteOfTail("/" + id);
    assert ObjectUrl(id) == CollectionUrl() + ("/" + id);
    Request(PATCH, ObjectUrl(id), JsonHeaders, Some(Partial(data)))
  }

  /** `deleteObject(id)`: DELETE on the object's URL, without a body. */
  function DeleteObject(id: string): (r: Request)
    ensures r.verb == DELETE && Route(r.url) == Some(ById(id))
    ensures r.headers == [] && r.body == None
  {
    RouteOfTail("/" + id);
    assert ObjectUrl(id) == CollectionUrl() + ("/" + id);
    Request(DELETE, ObjectUrl(id), [], None)
  }

  /** The four per-object methods address the same URL and differ only in their verb;
      different ids give different URLs. */
  lemma PerObjectMethodsShareUrl(id: string, id': string, data: DeviceData, patch: PartialDeviceData)
    ensures GetObjectById(id).url == UpdateObject(id, data).url
      == PartialUpdateObject(id, patch).url == DeleteObject(id).url
    ensures GetObjectById(id).url == GetObjectById(id').url <==> id == id'
  {
    var r, r' := GetObjectById(id), GetObjectById(id');
    if r.url == r'.url {
      assert Route(r.url) == Route(r'.url);
    }
  }

  /** The keys of an attribute list, in order. */
  function Keys(attrs: Attributes): seq<string>
  {
    seq(|attrs|, i requires 0 <= i < |attrs| => attrs[i].0)
  }

  /** The value stored under `key`, if any. */
  function Lookup(attrs: Attributes, key: string): Option<Attr>
  {
    if attrs == [] then None
    else if attrs[0].0 == key then Some(attrs[0].1)
    else Lookup(attrs[1..], key)
  }

  predicate DistinctKeys(attrs: Attributes)
  {
    forall i, j :: 0 <= i < j < |attrs| ==> attrs[i].0 != attrs[j].0
  }

  /** `createSampleDevice(name = 'Test Device')`: the name as given (or the default when it
      is left out), and a blue 128 GB fifth-generation device from 2024. */
  function SampleDevice(name: Option<string>): (d: DeviceData)
    ensures name.Some? ==> d.name == name.value
    ensures name.None? ==> d.name == "Test Device"
    ensures d.data.Some? && DistinctKeys(d.data.value)
    ensures Keys(d.data.value) == ["color", "capacity", "price", "generation", "year"]
    ensures Lookup(d.data.value, "color") == Some(Text("Blue"))
    ensures Lookup(d.data.value, "capacity") == Some(Text("128 GB"))
    ensures Lookup(d.data.value, "generation") == Some(Text("5th"))
    ensures Lookup(d.data.value, "year") == Some(Whole(2024))
  {
    DeviceData(name.GetOr("Test Device"), Some([
      ("color", Text("Blue")),
      ("capacity", Text("128 GB")),
      ("price", Decimal("799.99")),
      ("generation", Text("5th")),
      ("year", Whole(2024))]))
  }

  /** `createSamplePhone(name = 'Apple iPhone 15')`: the name as given (or the default), and
      a midnight 256 GB fifteenth-generation phone from 2024 with an A16 Bionic. */
  function SamplePhone(name: Option<string>): (d: DeviceData)
    ensures name.Some? ==> d.name == name.value
    ensures name.None? ==> d.name == "Apple iPhone 15"
    ensures d.data.Some? && DistinctKeys(d.data.value)
    ensures Keys(d.data.value) == ["color", "capacity", "price", "year", "CPU model", "generation"]
    ensures Lookup(d.data.value, "color") == Some(Text("Midnight"))
    ensures Lookup(d.data.value, "capacity") == Some(Text("256 GB"))
    ensures Lookup(d.data.value, "CPU model") == Some(Text("A16 Bionic"))
    ensures Lookup(d.data.value, "generation") == Some(Text("15th"))
    ensures Lookup(d.data.value, "year") == Some(Whole(2024))
  {
    DeviceData(name.GetOr("Apple iPhone 15"), Some([
      ("color", Text("Midnight")),
      ("capacity", Text("256 GB")),
      ("price", Decimal("999.99")),
      ("year", Whole(2024)),
      ("CPU model", Text("A16 Bionic")),
      ("generation", Text("15th"))]))
  }

  /** `createSampleLaptop(name = 'Dell Laptop')`: the name as given (or the default), and a
      2023 laptop with an Intel Core i7 and a 1 TB disk. */
  function SampleLaptop(name: Option<string>): (d: DeviceData)
    ensures name.Some? ==> d.name == name.value
    ensures name.None? ==> d.name == "Dell Laptop"
    ensures d.data.Some? && DistinctKeys(d.data.value)
    ensures Keys(d.data.value) == ["year", "price", "CPU model", "Hard disk size"]
    ensures Lookup(d.data.value, "CPU model") == Some(Text("Intel Core i7"))
    ensures Lookup(d.data.value, "Hard disk size") == Some(Text("1 TB"))
    ensures Lookup(d.data.value, "year") == Some(Whole(2023))
  {
    DeviceData(name.GetOr("Dell Laptop"), Some([
      ("year", Whole(2023)),
      ("price", Decimal("1299.99")),
      ("CPU model", Text("Intel Core i7")),
      ("Hard disk size", Text("1 TB"))]))
  }
}
